=== FILE: README.md ===
# Creatorverse form logic in Dafny

Creatorverse is a single-page browser app for browsing, adding, editing and
deleting "creator" profiles. Each profile has a name, an image URL, a
description and up to three social-media links. Apart from calls to a hosted
database, the only logic is a small pure layer:

- **the social-handle codec.** `constructSocialUrl` turns a typed handle into
  the stored profile URL; the add screen, the edit screen and the form on the
  home page each carry a copy. `extractUsername` turns a stored URL back into
  the handle shown in the edit form; only the edit screen has it.
- **the submit validator.** Name and description come first. Then at least one
  username field must be filled in. Every screen with a form has a copy.
- **the record builder.** It maps the form to the row sent to the store.
  Every screen with a form has a copy.
- **the edit-form prefill.** The edit screen fills its form from the stored
  row, decoding each URL with `extractUsername`.
- **the home form's state.** Six fields plus `showAddForm` and `formLoading`,
  only on the home page. They are driven by typing, the header toggle, Cancel,
  Submit and the store's reply.

The three copies of `constructSocialUrl` and of the validator are identical
apart from comments, and so are the three copies of the record builder apart
from comments and the name of its local variable (`newCreator` or `updates`). They are modelled once, in
`SocialCodec` and `CreatorForm`, and each row below cites the copy whose lines
it states.

Modules, one per file:

| file | module | models |
|---|---|---|
| `wrappers.dfy` | `Wrappers` | `Option` (a JavaScript value that may be null) and `Result` |
| `text.dfy` | `Text` | `trim()`, `startsWith`, `substring`, `split('/')`, the regex `/@([^/?]+)/` |
| `url_oracle.dfy` | `UrlOracle` | `new URL(url).pathname` as a parser passed in as a parameter |
| `social_codec.dfy` | `SocialCodec` | `constructSocialUrl`, `extractUsername` |
| `creator_form.dfy` | `CreatorForm` | validator, record builder, edit-form prefill |
| `home_screen.dfy` | `HomeScreen` | the home page's add form as a state machine |

The URL parser is the WHATWG URL Standard's parsing algorithm (section 4.4).
Here it is a function value `parse: string -> Option<string>`, where `None`
means the constructor throws. The model asks one thing of it, through the
ghost predicate `ParsesSafeUrls`: for `"https://" + host + "/" + tail`, where
`host` is one of the three platform hosts (`youtube.com`, `twitter.com`,
`instagram.com`) and `tail` is over `[A-Za-z0-9_-]` and optionally starts with
`@`, it returns `Some("/" + tail)`. The browser's parser does this: such a
host is an ordinary domain, and none of those path characters is
percent-encoded or starts a query or fragment. `ModelParsePath` is a small concrete parser. It is proved
to meet that requirement, which shows the requirement can be satisfied.

On the home page the awaited insert is two events: Submit sends the record
and sets `formLoading`, and the store's answer (`InsertReply`) arrives later
as an event of its own that clears it.

## Behaviour of the code worth knowing

- The validator compares raw strings (`!name`, `!youtube_username`) and trims
  nothing. A draft whose only username is whitespace is therefore accepted,
  and its record has no social URL at all
  (`CreatorForm.BlankUsernamesPassButStoreNoUrl`).
  Opening such a profile in the edit screen shows three empty usernames, and
  saving it unchanged is then rejected (`CreatorForm.ResaveIsStable`).
- One alert, "Please fill in all required fields", covers both a missing name
  and a missing description (`CreatorForm.ValidationError`).
- The round trip is proved only for handles over `[A-Za-z0-9_-]`. A parsed
  pathname ends at the first `?` or `#`, so a handle containing either one
  does not come back whole.

## Model

| member | source | states |
|---|---|---|
| Text.Trim | src/pages/AddCreator.jsx:19-20 | `trim()` gives "" exactly when the input is all whitespace; otherwise it is the input minus its whole leading and trailing whitespace runs, and starts and ends with a non-space |
| Text.TrimUnique | src/pages/AddCreator.jsx:20 | any cut of the input that removes only surrounding whitespace and leaves non-space ends is what `trim()` returns |
| Text.Split | src/pages/EditCreator.jsx:57 | `split('/')` gives at least one piece; exactly one (the whole URL) when there is no '/'; no piece contains '/' |
| Text.SplitJoin | src/pages/EditCreator.jsx:57 | joining the pieces with '/' gives back the URL |
| Text.LastSegment | src/pages/EditCreator.jsx:57-59 | the result is a suffix of the URL without '/', and is either the whole URL or preceded by '/' |
| Text.SplitLastIsLastSegment | src/pages/EditCreator.jsx:57-58 | `parts[parts.length - 1]` of `split('/')` is the text after the last '/' |
| Text.LastSegmentEmpty | src/pages/EditCreator.jsx:58-59 | the last part is "" exactly when the URL is empty or ends with '/' |
| Text.Run | src/pages/EditCreator.jsx:54 | `[^/?]+` consumes the longest prefix free of '/' and '?', stopping at one of them or at the end |
| Text.AtCaptureSpec | src/pages/EditCreator.jsx:54-55 | the capture is the `[^/?]` run after the leftmost '@' followed by a character other than '/' or '?'; it is "" exactly when no '@' is followed by a character other than '/' or '?' |
| UrlOracle.ModelParsePathIsSound | src/pages/EditCreator.jsx:25-26 | the requirement placed on the URL parser is satisfiable: a concrete parser meets it |
| SocialCodec.StripOneAt | src/pages/AddCreator.jsx:20 | `replace(/^@/, '')` removes one leading '@' if present and otherwise changes nothing |
| SocialCodec.ConstructSocialUrl | src/pages/AddCreator.jsx:18-32 | null exactly when the username is absent, empty or whitespace, or the platform is unrecognised; otherwise the platform's fixed prefix followed by the trimmed, one-'@'-stripped handle |
| SocialCodec.SurroundingSpaceIgnored | src/pages/AddCreator.jsx:19-20 | whitespace around a handle never changes the built URL |
| SocialCodec.OneLeadingAtRemoved | src/pages/AddCreator.jsx:20 | only one '@' is removed ("@@x" is stored with "@x"); putting '@' in front of a handle that does not start with '@' gives the same URL as the handle alone |
| SocialCodec.LoneAtEncodesBareStem | src/pages/Home.jsx:60-61 | a lone "@" is not blank: it is stored as the bare platform prefix and cleans to "" |
| SocialCodec.EncodeCleanedHandle | src/pages/EditCreator.jsx:64-66 | encoding the cleaned handle again gives the URL the raw input gave, when the cleaned handle is safe and is non-empty unless the input was blank |
| SocialCodec.YouTubeHandle | src/pages/EditCreator.jsx:31-40 | a path starting "/@", "/c/", "/channel/" or "/user/" gives the path minus exactly 2, 3, 9 or 6 leading characters; any other path gives "" |
| SocialCodec.YouTubeShapesExclusive | src/pages/EditCreator.jsx:31-38 | no path starts with two of the four YouTube prefixes, so the order they are tested in does not matter |
| SocialCodec.LegacyChannelLink | src/pages/EditCreator.jsx:33-34 | a parsed `/c/name` YouTube link decodes to `name` |
| SocialCodec.AbsentUrlDecodesEmpty | src/pages/EditCreator.jsx:22 | an absent or empty URL decodes to "" on every platform, whatever the parser |
| SocialCodec.NullToEmptyBeforeDecode | src/pages/EditCreator.jsx:97-99 | mapping a null URL to "" before decoding changes no result |
| SocialCodec.ParsedPathDropsSlash | src/pages/EditCreator.jsx:42-47 | for Twitter and Instagram a parsed path loses exactly its first character; the path "/" gives "" |
| SocialCodec.UnparsedYouTubeAt | src/pages/EditCreator.jsx:53-56 | an unparseable YouTube URL containing '@' gives the regex capture, "" when there is none, and never falls through to the last-segment rule |
| SocialCodec.UnparsedLastSegment | src/pages/EditCreator.jsx:57-59 | any other unparseable URL (any platform, no '@' for YouTube) gives the text after its last '/', or the whole URL when it has none |
| SocialCodec.DecodeStoredUrl | src/pages/EditCreator.jsx:24-47 | a URL built from a safe handle parses to the platform path and decodes to that handle |
| SocialCodec.RoundTrip | src/pages/EditCreator.jsx:21-78 | for each of the three platforms, decoding the encoded input gives the trimmed, one-'@'-stripped input whenever that is over `[A-Za-z0-9_-]` (absent and blank inputs included) |
| CreatorForm.BuildRecord | src/pages/AddCreator.jsx:53-64 | name and description stored verbatim; image URL null exactly when "", otherwise kept; each social URL null exactly when its username is blank, otherwise the platform prefix plus the cleaned handle |
| CreatorForm.ValidationOrder | src/pages/AddCreator.jsx:39-47 | a missing name or description is rejected first, whatever the usernames; then three empty usernames; every other draft is accepted; a rejected draft builds no record |
| CreatorForm.ValidationSeesOnlyEmptiness | src/pages/EditCreator.jsx:115-123 | the verdict depends only on which fields are empty, so nothing is trimmed and a whitespace field counts as filled |
| CreatorForm.BlankUsernamesPassButStoreNoUrl | src/pages/AddCreator.jsx:44-55 | an accepted draft whose usernames are all whitespace has a non-empty username, yet its record has no social URL |
| CreatorForm.BlankUsernameExample | src/pages/AddCreator.jsx:39-64 | the draft ("Ada", "", "Pioneer", " ", "", "") is accepted and stored with no image and no URL |
| CreatorForm.AcceptedDraftHasSocialUrl | src/pages/Home.jsx:85-96 | an accepted draft whose usernames are each empty or contain a non-space character yields a record with at least one social URL |
| CreatorForm.PrefillReadsRow | src/pages/EditCreator.jsx:93-99 | null text columns prefill as "", others verbatim; each username is `extractUsername` of its column, "" when the column is null or empty |
| CreatorForm.ReopenShowsCleanedHandles | src/pages/EditCreator.jsx:93-99 | for usernames whose cleaned form is over `[A-Za-z0-9_-]`, reopening a saved form shows the same text fields and the cleaned handles |
| CreatorForm.ResaveIsStable | src/pages/EditCreator.jsx:115-140 | with every username stable, the reopened form builds the same record and the edit validator gives the first save's verdict, except that a record with no social URL reopens with three empty usernames and is rejected, so nothing is written again |
| CreatorForm.SameRecordVerdict | src/pages/EditCreator.jsx:115-123 | a form with the same name, description and record, whose usernames are empty exactly where the first form's are blank, gets the first form's verdict, except that when the first form is accepted and its record has no social URL, the second is rejected for missing usernames |
| CreatorForm.LoneAtIsDroppedOnResave | src/pages/EditCreator.jsx:115-131 | a Twitter username "@" is stored as the bare prefix and reopens as ""; when the other usernames' cleaned forms are over `[A-Za-z0-9_-]`, the second save writes a null Twitter URL when another username is non-empty after cleaning, and is rejected (leaving the bare prefix stored) when none is |
| HomeScreen.TypingEditsOneField | src/pages/Home.jsx:178-263 | with the form shown, typing sets that field and no other; with the form hidden nothing changes; typing never inserts |
| HomeScreen.SubmitNeedsVisibleIdleForm | src/pages/Home.jsx:178-270 | a submit while the form is hidden or a submission is in flight does nothing, so a second insert cannot start while one is pending |
| HomeScreen.RejectedSubmitChangesNothing | src/pages/Home.jsx:80-88 | a rejected draft raises its alert, sends nothing and leaves the state unchanged |
| HomeScreen.AcceptedSubmitStartsInsert | src/pages/Home.jsx:90-111 | an accepted draft sends the record the add screen builds and sets `formLoading`, changing nothing else |
| HomeScreen.SuccessfulReplyResets | src/pages/Home.jsx:118-125 | when the pending insert succeeds all six fields become "", the form is hidden and `formLoading` is cleared |
| HomeScreen.FailedReplyKeepsForm | src/pages/Home.jsx:130-146 | when the pending insert fails, fields and visibility stay as they are, including edits made while it was pending; only `formLoading` is cleared |
| HomeScreen.CancelClearsIdempotently | src/pages/Home.jsx:149-157 | Cancel empties all six fields and hides the form, leaves the loading flag, and is idempotent |
| HomeScreen.CancelNeedsVisibleForm | src/pages/Home.jsx:178-275 | Cancel clears the form only while it is shown; on a hidden form there is no Cancel button and nothing changes |
| HomeScreen.ToggleKeepsFields | src/pages/Home.jsx:171 | the toggle flips visibility and keeps the fields, so two toggles restore the state; hiding a filled form with it differs from Cancel |
| HomeScreen.StepBalancesInserts | src/pages/Home.jsx:90-146 | an event that sends an insert starts from an idle form and leaves it loading; a reply to a pending insert leaves it idle; every other event keeps the flag |
| HomeScreen.InsertsBalanceReplies | src/pages/Home.jsx:90-146 | over any session, inserts sent plus the starting flag equal replies received plus the final flag; starting idle, at most one insert is outstanding and `formLoading` is set exactly while one is |
| HomeScreen.MountedPageHasOneInsertInFlight | src/pages/Home.jsx:90-146 | from the page as mounted, inserts sent never exceed replies received by more than one, and `formLoading` is set exactly when one is outstanding |
| HomeScreen.InsertedRecordsAreValidated | src/pages/Home.jsx:80-111 | every record a session sends to the store has a non-empty name and description |
| HomeScreen.NoSubmitNoInsert | src/pages/Home.jsx:107-111 | a session without a submit sends nothing to the store |

## Left out

- Database calls (select, insert, update, delete), `navigate`, `alert` and `console` are I/O. The store's reply is an input, and an alert is the returned error value.
- The classification of error codes and messages (src/pages/Home.jsx:139) only chooses the alert text.
- The URL parser's internals (percent-encoding, dot segments, backslashes, query and fragment) are left out. The parser is a parameter, constrained only for the three platform hosts and the safe alphabet.
- JavaScript's full Unicode whitespace set for `trim()` is replaced by a fixed subset (`Text.Whitespace`).
- The fetch effects, their loading flags and late-response races (src/pages/EditCreator.jsx:81-109, src/pages/Home.jsx:24-48) are event-loop behaviour. The failed-load alert on the edit screen is part of this.
- After a successful insert, Home awaits the list refresh and then navigates before its `finally` clears `formLoading` (src/pages/Home.jsx:127-129). The model clears the fields and the flag in the one reply event, so events that fall between those two moments are not modelled.
- The image input has `type="url"` (src/pages/Home.jsx:200, src/pages/AddCreator.jsx:120, src/pages/EditCreator.jsx:201). The browser strips whitespace from its ends and blocks the submit while a non-empty value is not an absolute URL. The model takes the value as typed and lets every value through.
- The edit screen's delete action and its confirmation modal (`handleDelete`, `showDeleteModal`) are out of scope here. So is the browser's native `required` check on the name and description inputs.
- src/components/Card.jsx, src/components/Modal.jsx, src/pages/ViewCreator.jsx, src/pages/ShowCreators.jsx and src/App.jsx are presentation, DOM scroll locking, fetch-and-render and the route table. None of them is part of this model.
- SocialCodec.RoundTrip: stated only for handles whose cleaned form is over `[A-Za-z0-9_-]`, because that is the only place the abstract parser is constrained.
- CreatorForm.ResaveIsStable: requires every cleaned username to be safe and, unless blank, non-empty. `CreatorForm.LoneAtIsDroppedOnResave` shows why the second condition is needed.

=== FILE: creator_form.dfy ===
/**
 * The creator form: the submit validator and the record built from the
 * form, which the add screen, the edit screen and the form on the home page
 * each carry an identical copy of (modelled once), and the edit form filled
 * in from a stored row, which only the edit screen does.
 */
module CreatorForm {
  import opened Wrappers
  import opened Text
  import opened UrlOracle
  import opened SocialCodec

  /** The six controlled inputs of the form, exactly as typed. */
  datatype Form = Form(
    name: string,
    imageURL: string,
    description: string,
    youtube: string,
    twitter: string,
    instagram: string)

  const EmptyForm := Form("", "", "", "", "", "")

  /** The object handed to the store's insert or update. */
  datatype CreatorRecord = CreatorRecord(
    name: string,
    imageURL: Option<string>,
    description: string,
    youtubeURL: Option<string>,
    twitterURL: Option<string>,
    instagramURL: Option<string>)

  /** A row read back from the store; any column may be null. */
  datatype StoredRow = StoredRow(
    name: Option<string>,
    imageURL: Option<string>,
    description: Option<string>,
    youtubeURL: Option<string>,
    twitterURL: Option<string>,
    instagramURL: Option<string>)

  /** The two alerts the submit handler can raise before any store call. */
  datatype ValidationError = MissingRequiredField | NoSocialUsername

  /** The submit checks, in source order; None means the draft is accepted. */
  function Validate(f: Form): Option<ValidationError> {
    if f.name == "" || f.description == "" then Some(MissingRequiredField)
    else if f.youtube == "" && f.twitter == "" && f.instagram == "" then Some(NoSocialUsername)
    else None
  }

  /** `s || null` on a string. */
  function OrNull(s: string): Option<string> {
    if s == "" then None else Some(s)
  }

  /** The record built from an accepted form. */
  function BuildRecord(f: Form): (r: CreatorRecord)
    ensures r.name == f.name && r.description == f.description
    ensures r.imageURL.None? <==> f.imageURL == ""
    ensures r.imageURL.Some? ==> r.imageURL.value == f.imageURL
    ensures r.youtubeURL.None? <==> AllSpace(f.youtube)
    ensures r.twitterURL.None? <==> AllSpace(f.twitter)
    ensures r.instagramURL.None? <==> AllSpace(f.instagram)
    ensures r.youtubeURL.Some? ==> r.youtubeURL.value == Prefix(YouTube) + CleanHandle(f.youtube)
    ensures r.twitterURL.Some? ==> r.twitterURL.value == Prefix(Twitter) + CleanHandle(f.twitter)
    ensures r.instagramURL.Some? ==> r.instagramURL.value == Prefix(Instagram) + CleanHandle(f.instagram)
  {
    CreatorRecord(
      f.name,
      OrNull(f.imageURL),
      f.description,
      ConstructSocialUrl(YouTube, Some(f.youtube)),
      ConstructSocialUrl(Twitter, Some(f.twitter)),
      ConstructSocialUrl(Instagram, Some(f.instagram)))
  }

  /** The submit handler up to the store call: an alert, or the record to send. */
  function Submit(f: Form): Result<CreatorRecord, ValidationError> {
    match Validate(f)
    case Some(e) => Failure(e)
    case None => Success(BuildRecord(f))
  }

  /** The edit form filled in from a stored row, each URL decoded back to a handle. */
  function Prefill(row: StoredRow, parse: PathParser): Form {
    Form(
      row.name.GetOr(""),
      row.imageURL.GetOr(""),
      row.description.GetOr(""),
      ExtractUsername(YouTube, parse, Some(row.youtubeURL.GetOr(""))),
      ExtractUsername(Twitter, parse, Some(row.twitterURL.GetOr(""))),
      ExtractUsername(Instagram, parse, Some(row.instagramURL.GetOr(""))))
  }

  /** The row the store holds after accepting a record. */
  function AsStored(r: CreatorRecord): StoredRow {
    StoredRow(Some(r.name), r.imageURL, Some(r.description), r.youtubeURL, r.twitterURL, r.instagramURL)
  }

  predicate HasSocialUrl(r: CreatorRecord) {
    r.youtubeURL.Some? || r.twitterURL.Some? || r.instagramURL.Some?
  }

  // ---------------------------------------------------------------------
  // Validation
  // ---------------------------------------------------------------------

  /**
   * A missing name or description is reported first, whatever the usernames;
   * then three empty usernames; every other draft is accepted and its record
   * is built, and a rejected draft builds no record.
   */
  lemma ValidationOrder(f: Form)
    ensures Submit(f) == Failure(MissingRequiredField) <==> (f.name == "" || f.description == "")
    ensures Submit(f) == Failure(NoSocialUsername)
            <==> (f.name != "" && f.description != "" && f.youtube == "" && f.twitter == "" && f.instagram == "")
    ensures Submit(f).Success?
            <==> (f.name != "" && f.description != "" && (f.youtube != "" || f.twitter != "" || f.instagram != ""))
    ensures Submit(f).Success? ==> Submit(f).value == BuildRecord(f)
  {
  }

  /**
   * Nothing is trimmed: the verdict depends only on which fields are empty,
   * so a field holding only spaces counts as filled in.
   */
  lemma ValidationSeesOnlyEmptiness(f: Form, g: Form)
    requires (f.name == "") == (g.name == "") && (f.description == "") == (g.description == "")
    requires (f.youtube == "") == (g.youtube == "") && (f.twitter == "") == (g.twitter == "")
    requires (f.instagram == "") == (g.instagram == "")
    ensures Validate(f) == Validate(g)
  {
  }

  /**
   * The gap the untrimmed check leaves: a draft accepted because a username
   * is filled in, yet every username is whitespace, is built into a record
   * with no social URL at all.
   */
  lemma BlankUsernamesPassButStoreNoUrl(f: Form)
    requires Validate(f).None?
    requires AllSpace(f.youtube) && AllSpace(f.twitter) && AllSpace(f.instagram)
    ensures f.youtube != "" || f.twitter != "" || f.instagram != ""
    ensures !HasSocialUrl(Submit(f).value)
  {
  }

  /** Such drafts exist: one username of a single space is enough. */
  lemma BlankUsernameExample()
    ensures var f := Form("Ada", "", "Pioneer", " ", "", "");
            Submit(f) == Success(CreatorRecord("Ada", None, "Pioneer", None, None, None))
  {
    var f := Form("Ada", "", "Pioneer", " ", "", "");
    assert AllSpace(f.youtube);
  }

  /**
   * The record invariant "at least one social URL" does hold for accepted
   * drafts whose usernames are each empty or contain a non-space character.
   */
  lemma AcceptedDraftHasSocialUrl(f: Form)
    requires Validate(f).None?
    requires f.youtube == "" || !AllSpace(f.youtube)
    requires f.twitter == "" || !AllSpace(f.twitter)
    requires f.instagram == "" || !AllSpace(f.instagram)
    ensures HasSocialUrl(Submit(f).value)
  {
  }

  // ---------------------------------------------------------------------
  // Edit form
  // ---------------------------------------------------------------------

  /**
   * Prefill copies the text columns, null becoming "", and decodes each URL
   * column as `extractUsername` does on the column itself: a null or empty
   * URL shows an empty username.
   */
  lemma PrefillReadsRow(row: StoredRow, parse: PathParser)
    ensures var f := Prefill(row, parse);
            && (row.name.None? ==> f.name == "") && (row.name.Some? ==> f.name == row.name.value)
            && (row.imageURL.None? ==> f.imageURL == "") && (row.imageURL.Some? ==> f.imageURL == row.imageURL.value)
            && (row.description.None? ==> f.description == "")
            && (row.description.Some? ==> f.description == row.description.value)
            && f.youtube == ExtractUsername(YouTube, parse, row.youtubeURL)
            && f.twitter == ExtractUsername(Twitter, parse, row.twitterURL)
            && f.instagram == ExtractUsername(Instagram, parse, row.instagramURL)
            && (row.youtubeURL.None? || row.youtubeURL == Some("") ==> f.youtube == "")
            && (row.twitterURL.None? || row.twitterURL == Some("") ==> f.twitter == "")
            && (row.instagramURL.None? || row.instagramURL == Some("") ==> f.instagram == "")
  {
    NullToEmptyBeforeDecode(YouTube, parse, row.youtubeURL);
    NullToEmptyBeforeDecode(Twitter, parse, row.twitterURL);
    NullToEmptyBeforeDecode(Instagram, parse, row.instagramURL);
  }

  /** A username whose cleaned form is a safe handle, non-empty unless the input is blank. */
  predicate StableUsername(u: string) {
    IsSafeHandle(CleanHandle(u)) && (CleanHandle(u) != [] || AllSpace(u))
  }

  /** Every username of the form is stable. */
  predicate StableForm(f: Form) {
    StableUsername(f.youtube) && StableUsername(f.twitter) && StableUsername(f.instagram)
  }

  /**
   * Saving a form and opening the edit screen on the stored row shows the
   * same text fields and the cleaned handles.
   */
  lemma ReopenShowsCleanedHandles(f: Form, parse: PathParser)
    requires ParsesSafeUrls(parse)
    requires IsSafeHandle(CleanHandle(f.youtube)) && IsSafeHandle(CleanHandle(f.twitter))
    requires IsSafeHandle(CleanHandle(f.instagram))
    ensures Prefill(AsStored(BuildRecord(f)), parse)
            == Form(f.name, f.imageURL, f.description,
                    CleanHandle(f.youtube), CleanHandle(f.twitter), CleanHandle(f.instagram))
  {
    var r := BuildRecord(f);
    RoundTrip(YouTube, parse, Some(f.youtube));
    RoundTrip(Twitter, parse, Some(f.twitter));
    RoundTrip(Instagram, parse, Some(f.instagram));
    NullToEmptyBeforeDecode(YouTube, parse, r.youtubeURL);
    NullToEmptyBeforeDecode(Twitter, parse, r.twitterURL);
    NullToEmptyBeforeDecode(Instagram, parse, r.instagramURL);
  }

  /** The edit form shown after saving `f` and opening the stored row. */
  function Reopened(f: Form, parse: PathParser): Form {
    Prefill(AsStored(BuildRecord(f)), parse)
  }

  /**
   * Saving, reopening and saving again without touching the form builds the
   * same record, when every username is stable.  The edit screen's validator
   * gives the same verdict as the first save, except for a record with no
   * social URL (every username whitespace): that reopens with three empty
   * usernames and is rejected, so nothing is written the second time.
   */
  lemma ResaveIsStable(f: Form, parse: PathParser)
    requires ParsesSafeUrls(parse)
    requires StableForm(f)
    ensures BuildRecord(Reopened(f, parse)) == BuildRecord(f)
    ensures Submit(f).Failure? ==> Submit(Reopened(f, parse)) == Submit(f)
    ensures Submit(f).Success? && HasSocialUrl(BuildRecord(f)) ==> Submit(Reopened(f, parse)) == Submit(f)
    ensures Submit(f).Success? && !HasSocialUrl(BuildRecord(f)) ==> Submit(Reopened(f, parse)) == Failure(NoSocialUsername)
  {
    ReopenedFields(f, parse);
    ResaveBuildsSameRecord(f, parse);
    StableEmptiness(f.youtube);
    StableEmptiness(f.twitter);
    StableEmptiness(f.instagram);
    SameRecordVerdict(f, Reopened(f, parse));
  }

  /**
   * A form with the same name and description and the same record, whose
   * usernames are empty exactly where the first form's are blank, gets the
   * first form's verdict, except that when the first form is accepted and its
   * record has no social URL, the second is rejected for missing usernames.
   */
  lemma SameRecordVerdict(f: Form, g: Form)
    requires g.name == f.name && g.description == f.description
    requires (g.youtube == [] <==> AllSpace(f.youtube)) && (g.twitter == [] <==> AllSpace(f.twitter))
    requires g.instagram == [] <==> AllSpace(f.instagram)
    requires BuildRecord(g) == BuildRecord(f)
    ensures Submit(f).Failure? ==> Submit(g) == Submit(f)
    ensures Submit(f).Success? && HasSocialUrl(BuildRecord(f)) ==> Submit(g) == Submit(f)
    ensures Submit(f).Success? && !HasSocialUrl(BuildRecord(f)) ==> Submit(g) == Failure(NoSocialUsername)
  {
    var r := BuildRecord(f);
    assert HasSocialUrl(r) <==> !(AllSpace(f.youtube) && AllSpace(f.twitter) && AllSpace(f.instagram));
    if f.youtube == [] { assert AllSpace(f.youtube); }
    if f.twitter == [] { assert AllSpace(f.twitter); }
    if f.instagram == [] { assert AllSpace(f.instagram); }
  }

  /** The reopened form's text fields are the saved ones and its usernames the cleaned ones. */
  lemma ReopenedFields(f: Form, parse: PathParser)
    requires ParsesSafeUrls(parse)
    requires StableForm(f)
    ensures Reopened(f, parse).name == f.name && Reopened(f, parse).description == f.description
    ensures Reopened(f, parse).youtube == CleanHandle(f.youtube)
    ensures Reopened(f, parse).twitter == CleanHandle(f.twitter)
    ensures Reopened(f, parse).instagram == CleanHandle(f.instagram)
  {
    ReopenShowsCleanedHandles(f, parse);
  }

  lemma ResaveBuildsSameRecord(f: Form, parse: PathParser)
    requires ParsesSafeUrls(parse)
    requires StableForm(f)
    ensures BuildRecord(Reopened(f, parse)) == BuildRecord(f)
  {
    ReopenShowsCleanedHandles(f, parse);
    EncodeCleanedHandle(YouTube, f.youtube);
    EncodeCleanedHandle(Twitter, f.twitter);
    EncodeCleanedHandle(Instagram, f.instagram);
  }

  /** A stable username cleans to "" exactly when it is blank, which is exactly when it builds no URL. */
  lemma StableEmptiness(u: string)
    requires StableUsername(u)
    ensures CleanHandle(u) == [] <==> AllSpace(u)
  {
    if AllSpace(u) {
      assert Trim(u) == [];
    }
  }

  /**
   * Stability needs the non-empty condition: a lone "@" is stored as the bare
   * stem and reopens as "".  When the other usernames clean to safe handles,
   * a second save drops the Twitter URL if one of them is non-empty; if none
   * is, the edit screen rejects the form and the bare stem stays stored.
   */
  lemma LoneAtIsDroppedOnResave(f: Form, parse: PathParser)
    requires ParsesSafeUrls(parse)
    requires f.twitter == "@"
    requires IsSafeHandle(CleanHandle(f.youtube)) && IsSafeHandle(CleanHandle(f.instagram))
    ensures BuildRecord(f).twitterURL == Some(Prefix(Twitter))
    ensures BuildRecord(Reopened(f, parse)).twitterURL == None
    ensures Submit(f).Success? && (CleanHandle(f.youtube) != [] || CleanHandle(f.instagram) != []) ==>
              Submit(Reopened(f, parse)).Success? && Submit(Reopened(f, parse)).value.twitterURL == None
    ensures Submit(f).Success? && CleanHandle(f.youtube) == [] && CleanHandle(f.instagram) == [] ==>
              Submit(Reopened(f, parse)) == Failure(NoSocialUsername)
  {
    LoneAtEncodesBareStem(Twitter, f.twitter);
    ReopenShowsCleanedHandles(f, parse);
  }
}

=== FILE: home_screen.dfy ===
/**
 * The add form embedded in the home page: six field values, whether the
 * form is shown, and whether a submission is in flight, driven by typing,
 * the header toggle, Cancel and Submit.  The awaited insert is split in
 * two events: Submit sends it, and the store's answer arrives later as an
 * event of its own that either succeeds or fails.
 */
module HomeScreen {
  import opened Wrappers
  import opened CreatorForm

  datatype HomeState = HomeState(form: Form, showAddForm: bool, formLoading: bool)

  /** The state after the page mounts. */
  const Initial := HomeState(EmptyForm, false, false)

  datatype Field = NameField | ImageField | DescriptionField | YouTubeField | TwitterField | InstagramField

  /** One input's `onChange`: that field takes the typed value, the others keep theirs. */
  function SetField(f: Form, field: Field, v: string): Form {
    match field
    case NameField => f.(name := v)
    case ImageField => f.(imageURL := v)
    case DescriptionField => f.(description := v)
    case YouTubeField => f.(youtube := v)
    case TwitterField => f.(twitter := v)
    case InstagramField => f.(instagram := v)
  }

  /** The value one input currently shows. */
  function GetField(f: Form, field: Field): string {
    match field
    case NameField => f.name
    case ImageField => f.imageURL
    case DescriptionField => f.description
    case YouTubeField => f.youtube
    case TwitterField => f.twitter
    case InstagramField => f.instagram
  }

  /** The header button: flips the form's visibility and nothing else. */
  function Toggle(s: HomeState): HomeState {
    s.(showAddForm := !s.showAddForm)
  }

  /** `handleCancel`: every field cleared and the form hidden. */
  function Cancel(s: HomeState): HomeState {
    s.(form := EmptyForm, showAddForm := false)
  }

  /** What one action leaves behind: the next state, the record sent to the store, the alert raised. */
  datatype StepOutcome = StepOutcome(next: HomeState, inserted: Option<CreatorRecord>, rejected: Option<ValidationError>)

  /**
   * `handleSubmit` up to the awaited insert: a rejected draft raises its
   * alert and changes nothing; an accepted one sets `formLoading` and sends
   * the record built from the fields.
   */
  function HandleSubmit(s: HomeState): StepOutcome {
    match Submit(s.form)
    case Failure(e) => StepOutcome(s, None, Some(e))
    case Success(rec) => StepOutcome(s.(formLoading := true), Some(rec), None)
  }

  /**
   * `handleSubmit` after the awaited insert: on success every field is
   * cleared and the form hidden; on failure only the `finally` runs.  In both
   * cases `formLoading` ends false.
   */
  function HandleReply(s: HomeState, succeeded: bool): HomeState {
    if succeeded then HomeState(EmptyForm, false, false) else s.(formLoading := false)
  }

  /** A user action, or the store's answer to the pending insert. */
  datatype Event =
    | Type(field: Field, value: string)
    | ToggleForm
    | CancelForm
    | SubmitForm
    | InsertReply(succeeded: bool)

  /**
   * One event.  The inputs, Submit and Cancel exist only while the form is
   * rendered, and Submit is disabled while `formLoading` is set; the toggle
   * is always there.  A reply arrives only while an insert is pending.
   */
  function Step(s: HomeState, e: Event): StepOutcome {
    match e
    case Type(field, v) =>
      StepOutcome(if s.showAddForm then s.(form := SetField(s.form, field, v)) else s, None, None)
    case ToggleForm => StepOutcome(Toggle(s), None, None)
    case CancelForm => StepOutcome(if s.showAddForm then Cancel(s) else s, None, None)
    case SubmitForm =>
      if s.showAddForm && !s.formLoading then HandleSubmit(s) else StepOutcome(s, None, None)
    case InsertReply(ok) =>
      StepOutcome(if s.formLoading then HandleReply(s, ok) else s, None, None)
  }

  /** The event is a reply that completes the pending insert. */
  predicate Answers(s: HomeState, e: Event) {
    e.InsertReply? && s.formLoading
  }

  /** The state after a sequence of events. */
  function RunSession(s: HomeState, events: seq<Event>): HomeState
    decreases |events|
  {
    if events == [] then s else RunSession(Step(s, events[0]).next, events[1..])
  }

  /** The records sent to the store during a sequence of events, in order. */
  function Inserted(s: HomeState, events: seq<Event>): seq<CreatorRecord>
    decreases |events|
  {
    if events == [] then []
    else
      var o := Step(s, events[0]);
      (if o.inserted.Some? then [o.inserted.value] else []) + Inserted(o.next, events[1..])
  }

  /** How many inserts a sequence of events completes. */
  function Answered(s: HomeState, events: seq<Event>): nat
    decreases |events|
  {
    if events == [] then 0
    else (if Answers(s, events[0]) then 1 else 0) + Answered(Step(s, events[0]).next, events[1..])
  }

  // ---------------------------------------------------------------------
  // Typing
  // ---------------------------------------------------------------------

  /**
   * While the form is shown, typing into one input changes that field only;
   * while it is hidden there is no input to type into.
   */
  lemma TypingEditsOneField(s: HomeState, field: Field, v: string)
    ensures s.showAddForm ==> GetField(Step(s, Type(field, v)).next.form, field) == v
    ensures forall g :: g != field ==> GetField(Step(s, Type(field, v)).next.form, g) == GetField(s.form, g)
    ensures !s.showAddForm ==> Step(s, Type(field, v)).next == s
    ensures Step(s, Type(field, v)).next.showAddForm == s.showAddForm
    ensures Step(s, Type(field, v)).inserted.None?
  {
  }

  /** Submitting is impossible while the form is hidden or a submission is in flight. */
  lemma SubmitNeedsVisibleIdleForm(s: HomeState)
    requires !s.showAddForm || s.formLoading
    ensures Step(s, SubmitForm) == StepOutcome(s, None, None)
  {
  }

  // ---------------------------------------------------------------------
  // Submission
  // ---------------------------------------------------------------------

  /** A rejected draft raises its alert, sends nothing, and leaves the state as it was. */
  lemma RejectedSubmitChangesNothing(s: HomeState)
    requires Validate(s.form).Some?
    ensures HandleSubmit(s) == StepOutcome(s, None, Some(Validate(s.form).value))
  {
  }

  /**
   * An accepted draft sends the record the add screen would build and marks
   * the form as loading, leaving the fields and visibility as they were.
   */
  lemma AcceptedSubmitStartsInsert(s: HomeState)
    requires s.showAddForm && !s.formLoading && Validate(s.form).None?
    ensures Step(s, SubmitForm).inserted == Some(BuildRecord(s.form))
    ensures Step(s, SubmitForm).next == s.(formLoading := true)
    ensures Step(s, SubmitForm).rejected.None?
  {
  }

  /** After a successful insert every field is empty, the form is hidden and no longer loading. */
  lemma SuccessfulReplyResets(s: HomeState)
    requires s.formLoading
    ensures Step(s, InsertReply(true)).next.form == EmptyForm
    ensures !Step(s, InsertReply(true)).next.showAddForm
    ensures !Step(s, InsertReply(true)).next.formLoading
  {
  }

  /**
   * After a failed insert the fields and visibility are as they were, including
   * edits made while it was pending; only the loading flag is reset.
   */
  lemma FailedReplyKeepsForm(s: HomeState)
    requires s.formLoading
    ensures Step(s, InsertReply(false)).next == s.(formLoading := false)
  {
  }

  // ---------------------------------------------------------------------
  // Cancel and toggle
  // ---------------------------------------------------------------------

  /** Cancel empties every field and hides the form; cancelling twice is cancelling once. */
  lemma CancelClearsIdempotently(s: HomeState)
    ensures Cancel(s).form == EmptyForm && !Cancel(s).showAddForm
    ensures Cancel(s).formLoading == s.formLoading
    ensures Cancel(Cancel(s)) == Cancel(s)
  {
  }

  /** The Cancel button exists only inside the rendered form: on a hidden form nothing is cleared. */
  lemma CancelNeedsVisibleForm(s: HomeState)
    ensures s.showAddForm ==> Step(s, CancelForm).next == Cancel(s)
    ensures !s.showAddForm ==> Step(s, CancelForm).next == s
  {
  }

  /**
   * The toggle keeps the field values, so toggling twice restores the state;
   * hiding a filled-in form with it is not the same as cancelling.
   */
  lemma ToggleKeepsFields(s: HomeState)
    ensures Toggle(s).form == s.form && Toggle(s).showAddForm != s.showAddForm
    ensures Toggle(Toggle(s)) == s
    ensures s.showAddForm && s.form != EmptyForm ==> !Toggle(s).showAddForm && Toggle(s) != Cancel(s)
  {
  }

  // ---------------------------------------------------------------------
  // Whole sessions
  // ---------------------------------------------------------------------

  /**
   * One event either sends an insert (only from an idle state, which it
   * leaves loading), completes one (only from a loading state, which it
   * leaves idle), or leaves the loading flag alone.
   */
  lemma StepBalancesInserts(s: HomeState, e: Event)
    ensures Step(s, e).inserted.Some? ==> !s.formLoading && Step(s, e).next.formLoading
    ensures Answers(s, e) ==> !Step(s, e).next.formLoading
    ensures Step(s, e).inserted.None? && !Answers(s, e) ==> Step(s, e).next.formLoading == s.formLoading
  {
  }

  /**
   * Inserts sent plus the flag at the start equal inserts completed plus the
   * flag at the end.  Starting idle, at most one insert is ever outstanding,
   * and `formLoading` is set exactly while one is.
   */
  lemma {:induction false} InsertsBalanceReplies(s: HomeState, events: seq<Event>)
    ensures |Inserted(s, events)| + (if s.formLoading then 1 else 0)
            == Answered(s, events) + (if RunSession(s, events).formLoading then 1 else 0)
    ensures !s.formLoading ==>
              (RunSession(s, events).formLoading <==> |Inserted(s, events)| == Answered(s, events) + 1)
    ensures !s.formLoading ==> |Inserted(s, events)| <= Answered(s, events) + 1
    decreases |events|
  {
    if events != [] {
      var o := Step(s, events[0]);
      StepBalancesInserts(s, events[0]);
      InsertsBalanceReplies(o.next, events[1..]);
      var head := if o.inserted.Some? then [o.inserted.value] else [];
      assert Inserted(s, events) == head + Inserted(o.next, events[1..]);
    }
  }

  /** From the page as mounted, at most one insert is ever outstanding and `formLoading` marks exactly that. */
  lemma MountedPageHasOneInsertInFlight(events: seq<Event>)
    ensures |Inserted(Initial, events)| <= Answered(Initial, events) + 1
    ensures RunSession(Initial, events).formLoading <==> |Inserted(Initial, events)| == Answered(Initial, events) + 1
  {
    InsertsBalanceReplies(Initial, events);
  }

  /** Every record a session sends to the store has a name and a description. */
  lemma {:induction false} InsertedRecordsAreValidated(s: HomeState, events: seq<Event>)
    ensures forall k :: 0 <= k < |Inserted(s, events)| ==>
              Inserted(s, events)[k].name != "" && Inserted(s, events)[k].description != ""
    decreases |events|
  {
    if events != [] {
      var o := Step(s, events[0]);
      InsertedRecordsAreValidated(o.next, events[1..]);
      var head := if o.inserted.Some? then [o.inserted.value] else [];
      assert Inserted(s, events) == head + Inserted(o.next, events[1..]);
    }
  }

  /** A session that never submits sends nothing to the store. */
  lemma {:induction false} NoSubmitNoInsert(s: HomeState, events: seq<Event>)
    requires forall k :: 0 <= k < |events| ==> !events[k].SubmitForm?
    ensures Inserted(s, events) == []
    decreases |events|
  {
    if events != [] {
      NoSubmitNoInsert(Step(s, events[0]).next, events[1..]);
    }
  }
}

=== FILE: social_codec.dfy ===
/**
 * The social-handle codec: `constructSocialUrl`, which every form screen
 * carries, turns a typed handle into the stored profile URL, and
 * `extractUsername`, which only the edit screen has, turns a stored URL back
 * into the handle shown in the edit form.
 */
module SocialCodec {
  import opened Wrappers
  import opened Text
  import opened UrlOracle

  /** The platform tag passed as a string; `Other` is any tag outside the three the screens use. */
  datatype Platform = YouTube | Twitter | Instagram | Other

  /** The fixed URL stem each platform's handle is appended to. */
  function Prefix(p: Platform): string
    requires !p.Other?
  {
    match p
    case YouTube => "https://youtube.com/@"
    case Twitter => "https://twitter.com/"
    case Instagram => "https://instagram.com/"
  }

  /** The host name inside the platform's stem. */
  function Host(p: Platform): string
    requires !p.Other?
  {
    match p
    case YouTube => "youtube.com"
    case Twitter => "twitter.com"
    case Instagram => "instagram.com"
  }

  /** What precedes the handle in the path: '@' on YouTube, nothing elsewhere. */
  function Marker(p: Platform): string
    requires !p.Other?
  {
    if p.YouTube? then "@" else ""
  }

  /** `s.replace(/^@/, '')`: one leading '@' removed, if there is one. */
  function StripOneAt(s: string): (r: string)
    ensures |s| > 0 && s[0] == '@' ==> s == "@" + r
    ensures !(|s| > 0 && s[0] == '@') ==> r == s
  {
    if |s| > 0 && s[0] == '@' then s[1..] else s
  }

  /** The handle as typed, trimmed and with one leading '@' removed. */
  function CleanHandle(u: string): string {
    StripOneAt(Trim(u))
  }

  /** The cleaned form of a possibly absent input; an absent input cleans to "". */
  function CleanInput(username: Option<string>): string {
    match username
    case None => []
    case Some(u) => CleanHandle(u)
  }

  /** `constructSocialUrl(platform, username)`. */
  function ConstructSocialUrl(p: Platform, username: Option<string>): (r: Option<string>)
    ensures r.None? <==> (username.None? || AllSpace(username.value) || p.Other?)
    ensures r.Some? ==> r.value == Prefix(p) + CleanHandle(username.value)
  {
    if username.None? || username.value == [] || Trim(username.value) == [] then None
    else
      var clean := StripOneAt(Trim(username.value));
      match p
      case YouTube => Some("https://youtube.com/@" + clean)
      case Twitter => Some("https://twitter.com/" + clean)
      case Instagram => Some("https://instagram.com/" + clean)
      case Other => None
  }

  /** The handle inside a parsed YouTube pathname, for the four historical path shapes. */
  function YouTubeHandle(path: string): (r: string)
    ensures StartsWith(path, "/@") ==> r == path[2..]
    ensures StartsWith(path, "/c/") ==> r == path[3..]
    ensures StartsWith(path, "/channel/") ==> r == path[9..]
    ensures StartsWith(path, "/user/") ==> r == path[6..]
    ensures (!StartsWith(path, "/@") && !StartsWith(path, "/c/") && !StartsWith(path, "/channel/")
             && !StartsWith(path, "/user/")) ==> r == []
  {
    YouTubeShapesExclusive(path);
    if StartsWith(path, "/@") then path[2..]
    else if StartsWith(path, "/c/") then path[3..]
    else if StartsWith(path, "/channel/") then path[9..]
    else if StartsWith(path, "/user/") then path[6..]
    else []
  }

  /** The `try` branch: the handle read from a successfully parsed pathname. */
  function ParsedHandle(p: Platform, path: string): string {
    match p
    case YouTube => YouTubeHandle(path)
    case Twitter => SubstringFrom(path, 1)
    case Instagram => SubstringFrom(path, 1)
    case Other => []
  }

  /** The `catch` branch: the handle guessed from a URL the parser rejected. */
  function FallbackHandle(p: Platform, url: string): string {
    if p.YouTube? && '@' in url then AtCapture(url)
    else
      var parts := Split(url, '/');
      parts[|parts| - 1]
  }

  /** `extractUsername(platform, url)`, with the URL parser passed in. */
  function ExtractUsername(p: Platform, parse: PathParser, url: Option<string>): string {
    if url.None? || url.value == [] then []
    else
      match parse(url.value)
      case Some(path) => ParsedHandle(p, path)
      case None => FallbackHandle(p, url.value)
  }

  // ---------------------------------------------------------------------
  // Encoding
  // ---------------------------------------------------------------------

  /** Whitespace typed around a handle never changes the stored URL. */
  lemma SurroundingSpaceIgnored(p: Platform, a: string, u: string, b: string)
    requires AllSpace(a) && AllSpace(b)
    ensures ConstructSocialUrl(p, Some(a + u + b)) == ConstructSocialUrl(p, Some(u))
  {
    TrimIgnoresSurroundingSpace(a, u, b);
  }

  /**
   * Exactly one '@' is removed: for a handle with no whitespace at its ends,
   * typing one extra '@' in front gives the URL the handle alone would give
   * ("@@x" is stored with "@x").
   */
  lemma OneLeadingAtRemoved(p: Platform, h: string)
    requires !p.Other?
    requires h != [] && !IsSpace(h[0]) && !IsSpace(h[|h| - 1])
    ensures ConstructSocialUrl(p, Some("@" + h)) == Some(Prefix(p) + h)
    ensures h[0] != '@' ==> ConstructSocialUrl(p, Some("@" + h)) == ConstructSocialUrl(p, Some(h))
  {
    var ah := "@" + h;
    assert ah[0] == '@' && ah[|ah| - 1] == h[|h| - 1];
    TrimOfTrimmed(ah);
    TrimOfTrimmed(h);
    assert ah[1..] == h;
    assert !AllSpace(ah);
    assert !AllSpace(h) by { assert !IsSpace(h[0]); }
  }

  /**
   * Re-encoding a cleaned handle gives the URL the raw input gave, provided the
   * cleaned handle is over `[A-Za-z0-9_-]` and is non-empty unless the input
   * was blank (a lone "@" cleans to "" but still encodes to the bare stem).
   */
  lemma EncodeCleanedHandle(p: Platform, u: string)
    requires IsSafeHandle(CleanHandle(u))
    requires CleanHandle(u) != [] || AllSpace(u)
    ensures ConstructSocialUrl(p, Some(CleanHandle(u))) == ConstructSocialUrl(p, Some(u))
  {
    var h := CleanHandle(u);
    if h != [] {
      SafeCharNotSpace(h[0]);
      SafeCharNotSpace(h[|h| - 1]);
      TrimOfTrimmed(h);
      assert h[0] != '@';
    }
  }

  lemma SafeCharNotSpace(c: char)
    requires SafeChar(c)
    ensures !IsSpace(c) && c != '@'
  {
  }

  /** A lone "@" is not blank: it is stored as the bare platform stem, and cleans to "". */
  lemma LoneAtEncodesBareStem(p: Platform, u: string)
    requires !p.Other?
    requires |u| == 1 && u[0] == '@'
    ensures CleanHandle(u) == ""
    ensures ConstructSocialUrl(p, Some(u)) == Some(Prefix(p))
  {
    TrimOfTrimmed(u);
    assert !AllSpace(u) by { assert !IsSpace(u[0]); }
    assert Prefix(p) + [] == Prefix(p);
  }

  // ---------------------------------------------------------------------
  // Decoding
  // ---------------------------------------------------------------------

  /** At most one of the four YouTube path shapes applies, so the order they are tested in is immaterial. */
  lemma YouTubeShapesExclusive(path: string)
    ensures !(StartsWith(path, "/@") && StartsWith(path, "/c/"))
    ensures !(StartsWith(path, "/@") && StartsWith(path, "/channel/"))
    ensures !(StartsWith(path, "/@") && StartsWith(path, "/user/"))
    ensures !(StartsWith(path, "/c/") && StartsWith(path, "/channel/"))
    ensures !(StartsWith(path, "/c/") && StartsWith(path, "/user/"))
    ensures !(StartsWith(path, "/channel/") && StartsWith(path, "/user/"))
  {
    if StartsWith(path, "/c/") { assert path[2] == '/'; }
    if StartsWith(path, "/@") { assert path[1] == '@'; }
    if StartsWith(path, "/channel/") { assert path[1] == 'c' && path[2] == 'h'; }
  }

  /** A legacy `/c/name` YouTube link, parsed, decodes to the channel name. */
  lemma LegacyChannelLink(parse: PathParser, url: string, name: string)
    requires url != [] && parse(url) == Some("/c/" + name)
    ensures ExtractUsername(YouTube, parse, Some(url)) == name
  {
    assert ("/c/" + name)[..3] == "/c/";
  }

  /** An absent stored URL and an empty one both decode to "" on every platform, whatever the parser. */
  lemma AbsentUrlDecodesEmpty(p: Platform, parse: PathParser, url: Option<string>)
    requires url.None? || url == Some("")
    ensures ExtractUsername(p, parse, url) == ""
  {
  }

  /** Mapping a null stored URL to "" before decoding, as the edit form does, changes nothing. */
  lemma NullToEmptyBeforeDecode(p: Platform, parse: PathParser, url: Option<string>)
    ensures ExtractUsername(p, parse, Some(url.GetOr(""))) == ExtractUsername(p, parse, url)
  {
  }

  /** A parsed Twitter or Instagram path loses its first character; the root path "/" gives "". */
  lemma ParsedPathDropsSlash(p: Platform, parse: PathParser, url: string, path: string)
    requires p.Twitter? || p.Instagram?
    requires url != [] && parse(url) == Some(path)
    ensures path != [] ==> path == [path[0]] + ExtractUsername(p, parse, Some(url))
    ensures path == "/" || path == "" ==> ExtractUsername(p, parse, Some(url)) == ""
  {
  }

  /**
   * An unparseable YouTube URL containing '@' yields the `[^/?]` run after
   * the leftmost '@' that starts one, or "" when no '@' does; it is never
   * decoded by its last path segment.
   */
  lemma UnparsedYouTubeAt(parse: PathParser, url: string)
    requires parse(url) == None && '@' in url
    ensures forall i :: FirstAtMatch(url, i) ==> ExtractUsername(YouTube, parse, Some(url)) == Run(url[i + 1..])
    ensures ExtractUsername(YouTube, parse, Some(url)) == "" <==> forall i :: !AtMatchesAt(url, i)
  {
    AtCaptureSpec(url);
  }

  /**
   * Any other unparseable URL yields the text after its last '/', or the
   * whole URL when it has none (`LastSegmentEmpty` says when that is "").
   */
  lemma UnparsedLastSegment(p: Platform, parse: PathParser, url: string)
    requires url != [] && parse(url) == None
    requires !(p.YouTube? && '@' in url)
    ensures ExtractUsername(p, parse, Some(url)) == LastSegment(url)
  {
    SplitLastIsLastSegment(url);
  }

  // ---------------------------------------------------------------------
  // Round trip
  // ---------------------------------------------------------------------

  /** A stored URL is the https URL of the platform host with the marker and handle as its path. */
  lemma StoredUrlShape(p: Platform, h: string)
    requires !p.Other?
    ensures Prefix(p) + h == HttpsUrl(Host(p), Marker(p) + h)
  {
    PrefixParts(p);
    ConcatAssoc("https://", Host(p), "/", Marker(p), h);
  }

  lemma PrefixParts(p: Platform)
    requires !p.Other?
    ensures Prefix(p) == "https://" + Host(p) + "/" + Marker(p)
  {
  }

  lemma ConcatAssoc(a: string, b: string, c: string, d: string, e: string)
    ensures a + b + c + d + e == a + b + c + (d + e)
  {
  }

  /** The path "/" + marker + handle, with the '/' and the marker taken off, is the handle. */
  lemma PathAfterMarker(m: string, h: string)
    ensures ("/" + (m + h))[..1 + |m|] == "/" + m
    ensures ("/" + (m + h))[1 + |m|..] == h
  {
  }

  /** Any URL the encoder builds from a safe handle decodes to that handle. */
  lemma DecodeStoredUrl(p: Platform, parse: PathParser, h: string)
    requires !p.Other?
    requires ParsesSafeUrls(parse)
    requires IsSafeHandle(h)
    ensures ExtractUsername(p, parse, Some(Prefix(p) + h)) == h
  {
    var tail := Marker(p) + h;
    StoredUrlShape(p, h);
    assert Host(p) in PlatformHosts;
    assert IsSafePath(tail) by {
      if p.YouTube? { assert tail[1..] == h; }
    }
    assert parse(Prefix(p) + h) == Some("/" + tail);
    PathAfterMarker(Marker(p), h);
    if p.YouTube? {
      assert "/" + Marker(p) == "/@";
    }
  }

  /**
   * Decoding what was encoded gives back the cleaned handle, for every
   * platform the screens use and every input whose cleaned form is over
   * `[A-Za-z0-9_-]` (including an absent or blank input, which cleans to "").
   */
  lemma RoundTrip(p: Platform, parse: PathParser, username: Option<string>)
    requires !p.Other?
    requires ParsesSafeUrls(parse)
    requires IsSafeHandle(CleanInput(username))
    ensures ExtractUsername(p, parse, ConstructSocialUrl(p, username)) == CleanInput(username)
  {
    if ConstructSocialUrl(p, username).Some? {
      DecodeStoredUrl(p, parse, CleanInput(username));
    }
  }
}

=== FILE: text.dfy ===
/**
 * String primitives the screens use through JavaScript built-ins:
 * `String.prototype.trim`, `startsWith`, `split('/')` and the regular
 * expression `/@([^/?]+)/`.  Strings are sequences of characters.
 */
module Text {

  /**
   * The whitespace `trim()` removes.  JavaScript's set is TAB, VT, FF,
   * U+FEFF, every Unicode space separator, and the line terminators; the
   * model fixes this concrete subset of it.
   */
  const Whitespace: set<char> :=
    {' ', '\t', '\n', '\r', '\U{B}', '\U{C}', '\U{A0}', '\U{2028}', '\U{2029}', '\U{FEFF}'}

  predicate IsSpace(c: char) {
    c in Whitespace
  }

  predicate AllSpace(s: string) {
    forall i :: 0 <= i < |s| ==> IsSpace(s[i])
  }

  /** `r` is `s` with the whitespace before offset `i` and after `i + |r|` cut off, and no more. */
  predicate IsTrimOf(s: string, r: string, i: int) {
    && 0 <= i <= |s| - |r|
    && r == s[i..i + |r|]
    && (forall k :: 0 <= k < i ==> IsSpace(s[k]))
    && (forall k :: i + |r| <= k < |s| ==> IsSpace(s[k]))
    && (r == [] || (!IsSpace(r[0]) && !IsSpace(r[|r| - 1])))
  }

  /** The first index at or after `i` that does not hold whitespace, or `|s|`. */
  function SkipSpace(s: string, i: nat): (j: nat)
    requires i <= |s|
    ensures i <= j <= |s|
    ensures forall k :: i <= k < j ==> IsSpace(s[k])
    ensures j == |s| || !IsSpace(s[j])
    decreases |s| - i
  {
    if i < |s| && IsSpace(s[i]) then SkipSpace(s, i + 1) else i
  }

  /** The end, scanning back from `j` but not below `lo`, of a run not ending in whitespace. */
  function SkipSpaceBack(s: string, lo: nat, j: nat): (e: nat)
    requires lo <= j <= |s|
    ensures lo <= e <= j
    ensures forall k :: e <= k < j ==> IsSpace(s[k])
    ensures e == lo || !IsSpace(s[e - 1])
    decreases j
  {
    if j > lo && IsSpace(s[j - 1]) then SkipSpaceBack(s, lo, j - 1) else j
  }

  /** The width of the whitespace run at the start of `s`. */
  function LeadingSpace(s: string): (n: nat)
    ensures n <= |s|
  {
    SkipSpace(s, 0)
  }

  /** `String.prototype.trim`: whitespace removed at both ends. */
  function Trim(s: string): (r: string)
    ensures r == [] <==> AllSpace(s)
    ensures IsTrimOf(s, r, LeadingSpace(s))
  {
    var i := SkipSpace(s, 0);
    var e := SkipSpaceBack(s, i, |s|);
    assert e > i ==> s[i..e][0] == s[i] && s[i..e][e - i - 1] == s[e - 1];
    s[i..e]
  }

  /** Trimming has exactly one possible answer: any cut that satisfies `IsTrimOf` is what `Trim` returns. */
  lemma TrimUnique(s: string, m: string, j: int)
    requires IsTrimOf(s, m, j)
    ensures Trim(s) == m
  {
    var r := Trim(s);
    var i := LeadingSpace(s);
    if m == [] {
      assert AllSpace(s);
    } else {
      assert !IsSpace(s[j]) && !IsSpace(s[j + |m| - 1]);
      assert r != [];
      assert !IsSpace(s[i]) && !IsSpace(s[i + |r| - 1]);
      assert i == j;
      assert i + |r| == j + |m|;
    }
  }

  /** Padding a string with whitespace shifts its trim cut by the width of the left padding. */
  lemma PaddedTrimCut(a: string, u: string, b: string, m: string, i: int)
    requires AllSpace(a) && AllSpace(b) && IsTrimOf(u, m, i)
    ensures IsTrimOf(a + u + b, m, |a| + i)
  {
    var s := a + u + b;
    var j := |a| + i;
    forall k | 0 <= k < j ensures IsSpace(s[k]) {
      if k < |a| { assert s[k] == a[k]; } else { assert s[k] == u[k - |a|]; }
    }
    forall k | j + |m| <= k < |s| ensures IsSpace(s[k]) {
      if k < |a| + |u| { assert s[k] == u[k - |a|]; } else { assert s[k] == b[k - |a| - |u|]; }
    }
    assert s[|a|..|a| + |u|] == u;
    assert s[j..j + |m|] == u[i..i + |m|];
  }

  /** Whitespace around a string does not change its trimmed form. */
  lemma TrimIgnoresSurroundingSpace(a: string, u: string, b: string)
    requires AllSpace(a) && AllSpace(b)
    ensures Trim(a + u + b) == Trim(u)
  {
    var m := Trim(u);
    var i := LeadingSpace(u);
    PaddedTrimCut(a, u, b, m, i);
    TrimUnique(a + u + b, m, |a| + i);
  }

  /** A string with no whitespace at its ends is its own trim. */
  lemma TrimOfTrimmed(s: string)
    requires s == [] || (!IsSpace(s[0]) && !IsSpace(s[|s| - 1]))
    ensures Trim(s) == s
  {
    assert IsTrimOf(s, s, 0);
    TrimUnique(s, s, 0);
  }

  /** `s.startsWith(p)`. */
  predicate StartsWith(s: string, p: string) {
    |p| <= |s| && s[..|p|] == p
  }

  /** JavaScript `s.substring(k)` for `k >= 0`: the start is clamped to the length. */
  function SubstringFrom(s: string, k: nat): (r: string)
    ensures k <= |s| ==> s == s[..k] + r
    ensures k >= |s| ==> r == []
  {
    if k <= |s| then s[k..] else []
  }

  /** `s.split(sep)`: the pieces between separators, one more piece than separators. */
  function Split(s: string, sep: char): (parts: seq<string>)
    ensures |parts| >= 1
    ensures sep !in s ==> parts == [s]
    ensures sep in s ==> |parts| > 1
    ensures forall k :: 0 <= k < |parts| ==> sep !in parts[k]
  {
    if s == [] then [[]]
    else
      var rest := Split(s[1..], sep);
      assert s == [s[0]] + s[1..];
      if s[0] == sep then [[]] + rest
      else [[s[0]] + rest[0]] + rest[1..]
  }

  /** The pieces rejoined with the separator give back the input. */
  function Join(parts: seq<string>, sep: char): string
    requires |parts| >= 1
  {
    if |parts| == 1 then parts[0] else parts[0] + [sep] + Join(parts[1..], sep)
  }

  lemma {:induction false} SplitJoin(s: string, sep: char)
    ensures Join(Split(s, sep), sep) == s
  {
    if s != [] {
      var rest := Split(s[1..], sep);
      SplitJoin(s[1..], sep);
      if s[0] == sep {
        assert Split(s, sep)[1..] == rest;
      } else {
        var parts := Split(s, sep);
        if |rest| == 1 {
          assert parts == [[s[0]] + rest[0]];
        } else {
          assert parts[1..] == rest[1..];
          assert Join(rest, sep) == rest[0] + [sep] + Join(rest[1..], sep);
        }
      }
    }
  }

  /** The text after the last '/', or all of `s` when it has none. */
  function LastSegment(s: string): (r: string)
    ensures |r| <= |s| && r == s[|s| - |r|..]
    ensures '/' !in r
    ensures |r| < |s| ==> s[|s| - |r| - 1] == '/'
  {
    if '/' !in s then s
    else
      var r := LastSegment(s[1..]);
      assert |r| == |s| - 1 ==> r == s[1..];
      r
  }

  lemma InTail(s: string, c: char)
    requires s != [] && s[0] != c && c in s
    ensures c in s[1..]
  {
    assert s == [s[0]] + s[1..];
  }

  /** `parts[parts.length - 1]` after `split('/')` is the last segment. */
  lemma {:induction false} SplitLastIsLastSegment(s: string)
    ensures var parts := Split(s, '/'); parts[|parts| - 1] == LastSegment(s)
  {
    if s != [] && '/' in s {
      var t := s[1..];
      var rest := Split(t, '/');
      var parts := Split(s, '/');
      SplitLastIsLastSegment(t);
      assert LastSegment(s) == LastSegment(t);
      if s[0] == '/' {
        assert parts == [[]] + rest;
        assert parts[|parts| - 1] == rest[|rest| - 1];
      } else {
        InTail(s, '/');
        assert |rest| > 1;
        assert parts == [[s[0]] + rest[0]] + rest[1..];
        assert parts[|parts| - 1] == rest[|rest| - 1];
      }
    } else {
      assert Split(s, '/') == [s];
      assert LastSegment(s) == s;
    }
  }

  /** The text after the last '/' is empty exactly when the string ends with '/' (or is empty). */
  lemma LastSegmentEmpty(s: string)
    ensures LastSegment(s) == [] <==> (s == [] || s[|s| - 1] == '/')
  {
    var r := LastSegment(s);
    if r != [] {
      assert r[|r| - 1] == s[|s| - 1];
    }
  }

  /** The characters `[^/?]` excludes. */
  predicate IsStop(c: char) {
    c == '/' || c == '?'
  }

  /** The longest prefix of `s` in `[^/?]*` (what `[^/?]+` consumes greedily). */
  function Run(s: string): (r: string)
    ensures |r| <= |s| && r == s[..|r|]
    ensures forall k :: 0 <= k < |r| ==> !IsStop(r[k])
    ensures |r| == |s| || IsStop(s[|r|])
  {
    if s == [] || IsStop(s[0]) then [] else [s[0]] + Run(s[1..])
  }

  /** The pattern `@[^/?]` occurs at index `i`, so `/@([^/?]+)/` can match there. */
  predicate AtMatchesAt(s: string, i: int) {
    0 <= i < |s| - 1 && s[i] == '@' && !IsStop(s[i + 1])
  }

  /** Index `i` is the leftmost position where the pattern can match. */
  predicate FirstAtMatch(s: string, i: int) {
    AtMatchesAt(s, i) && forall k :: 0 <= k < i ==> !AtMatchesAt(s, k)
  }

  /**
   * Capture group 1 of `s.match(/@([^/?]+)/)`, or "" when there is no match:
   * the regex engine tries each start position from the left.
   */
  function AtCapture(s: string): string
  {
    if |s| < 2 then []
    else if s[0] == '@' && !IsStop(s[1]) then Run(s[1..])
    else AtCapture(s[1..])
  }

  /** The capture is the greedy `[^/?]` run after the leftmost matching '@', and "" when no '@' can match. */
  lemma {:induction false} AtCaptureSpec(s: string)
    ensures forall i :: FirstAtMatch(s, i) ==> AtCapture(s) == Run(s[i + 1..])
    ensures (forall i :: !AtMatchesAt(s, i)) ==> AtCapture(s) == []
    ensures AtCapture(s) == [] <==> (forall i :: !AtMatchesAt(s, i))
  {
    if |s| >= 2 && !(s[0] == '@' && !IsStop(s[1])) {
      var t := s[1..];
      AtCaptureSpec(t);
      assert forall i :: AtMatchesAt(s, i + 1) <==> AtMatchesAt(t, i);
      assert !AtMatchesAt(s, 0);
      forall i | FirstAtMatch(s, i)
        ensures AtCapture(s) == Run(s[i + 1..])
      {
        assert i >= 1;
        assert FirstAtMatch(t, i - 1) by {
          forall k | 0 <= k < i - 1 ensures !AtMatchesAt(t, k) {
            assert !AtMatchesAt(s, k + 1);
          }
        }
        assert t[i..] == s[i + 1..];
      }
      if forall i :: !AtMatchesAt(s, i) {
        forall i ensures !AtMatchesAt(t, i) {
          assert !AtMatchesAt(s, i + 1);
        }
      }
      if AtCapture(s) == [] {
        forall i ensures !AtMatchesAt(s, i) {
          if i >= 1 { assert !AtMatchesAt(t, i - 1); }
        }
      }
    } else if |s| >= 2 {
      assert AtMatchesAt(s, 0);
    }
  }
}

=== FILE: url_oracle.dfy ===
/**
 * The browser's URL parser (`new URL(url).pathname`, URL parsing in the
 * WHATWG URL Standard) seen only through the pathname it yields.  The
 * parser is a parameter of the codec; the one thing the model asks of it
 * is `ParsesSafeUrls`: an absolute https URL whose path is a plain handle
 * parses to that path.
 */
module UrlOracle {
  import opened Wrappers

  /** `new URL(url).pathname`, or None where the constructor throws. */
  type PathParser = string -> Option<string>

  /** The handle alphabet `[A-Za-z0-9_-]`. */
  predicate SafeChar(c: char) {
    ('A' <= c <= 'Z') || ('a' <= c <= 'z') || ('0' <= c <= '9') || c == '_' || c == '-'
  }

  predicate IsSafeHandle(h: string) {
    forall i :: 0 <= i < |h| ==> SafeChar(h[i])
  }


  /** A path tail the parser must pass through unchanged: a safe handle, optionally after one '@'. */
  predicate IsSafePath(s: string) {
    IsSafeHandle(s) || (|s| >= 1 && s[0] == '@' && IsSafeHandle(s[1..]))
  }

  /**
   * The hosts the codec builds URLs for.  The requirement on the parser is
   * stated for these three only: the URL Standard's host parser treats some
   * other dot-separated names specially (a numeric last label is parsed
   * as IPv4 and may be rejected).
   */
  const PlatformHosts: set<string> := {"youtube.com", "twitter.com", "instagram.com"}

  function HttpsUrl(host: string, tail: string): string {
    "https://" + host + "/" + tail
  }

  /** The single property of the parser the model relies on. */
  ghost predicate ParsesSafeUrls(parse: PathParser) {
    forall host, tail :: host in PlatformHosts && IsSafePath(tail) ==> parse(HttpsUrl(host, tail)) == Some("/" + tail)
  }

  /** Offset of the first '/' in `rest`, or its length when there is none. */
  function HostEnd(rest: string): (n: nat)
    ensures n <= |rest|
    ensures forall k :: 0 <= k < n ==> rest[k] != '/'
    ensures n < |rest| ==> rest[n] == '/'
  {
    if rest == [] || rest[0] == '/' then 0 else 1 + HostEnd(rest[1..])
  }

  /**
   * A deliberately small parser: `https://`, a non-empty host up to the
   * first '/', and everything from that '/' on as the path ("/" when
   * nothing follows the host).  It exists to show that `ParsesSafeUrls`
   * can be met.
   */
  function ModelParsePath(url: string): Option<string> {
    if |url| < 8 || url[..8] != "https://" then None
    else
      var rest := url[8..];
      var n := HostEnd(rest);
      if n == 0 then None
      else if n == |rest| then Some("/")
      else Some(rest[n..])
  }

  /** The small parser cuts an https URL at the first '/' after a non-empty host, whatever follows it. */
  lemma ModelParsePathAfterHost(host: string, tail: string)
    requires host != [] && '/' !in host
    ensures ModelParsePath("https://" + host + "/" + tail) == Some("/" + tail)
  {
    var url := "https://" + host + "/" + tail;
    var rest := host + "/" + tail;
    assert url == "https://" + rest;
    assert url[..8] == "https://";
    assert url[8..] == rest;
    assert forall k :: 0 <= k < |host| ==> rest[k] == host[k];
    assert rest[|host|] == '/';
    assert forall k :: 0 <= k < |host| ==> rest[k] != '/';
    assert HostEnd(rest) == |host|;
    assert rest[|host|..] == "/" + tail;
  }

  /** The small parser meets the requirement, so `ParsesSafeUrls` is satisfiable. */
  lemma ModelParsePathIsSound()
    ensures ParsesSafeUrls(ModelParsePath)
  {
    forall host, tail | host in PlatformHosts && IsSafePath(tail)
      ensures ModelParsePath(HttpsUrl(host, tail)) == Some("/" + tail)
    {
      assert host != [] && '/' !in host;
      ModelParsePathAfterHost(host, tail);
    }
  }
}

=== FILE: wrappers.dfy ===
/** Option and Result, the two failure-carrying shapes the model needs. */
module Wrappers {

  /** A JavaScript value that may be `null`/`undefined` (None) or present (Some). */
  datatype Option<+T> = None | Some(value: T) {

    /** The present value, or `default` when absent (the `x || default` idiom on non-empty values). */
    function GetOr(default: T): T {
      match this
      case Some(v) => v
      case None => default
    }
  }

  /** The outcome of an action that either produces a value or stops with an error. */
  datatype Result<+R, +E> = Success(value: R) | Failure(error: E)
}
